=== FILE: README.md ===
# rust-apps: the sequential crates, modelled in Dafny

This project models the sequential logic of a set of small Rust learning crates:

- **blog_state**: a blog post written with the state pattern. A `Post` holds an optional boxed state and its text. The states are `Draft`, `PendingReview` and `Published`. Text can be added in any state, and `content()` shows it only once the post is published.
- **blog**: the same workflow written as typestate. There is one type per state, and each transition consumes the old value and returns the next one.
- **list**: three singly linked containers. `LinkedList` and `Stack` are LIFO with an `i32` length counter, and `Stack` also has `peek`. `Queue` is FIFO, built from an owned head chain plus a raw tail pointer.
- **minigrep**: `Config::build`, a positional argument parser with two distinct errors, and `search`, a case-sensitive line filter.
- **limit-tracker**: `LimitTracker::set_value`. It stores a value and sends at most one of three warnings to a messenger, chosen by the ratio `value / max`.

Modules, one per source file:

| file | module | models |
|---|---|---|
| wrappers.dfy | `Wrappers` | Rust's `Option` and `Result` |
| sequences.dfy | `Sequences` | `Reverse`, used to state LIFO order |
| blog_state.dfy | `BlogState` | blog_state/src/lib.rs |
| blog.dfy | `Blog` | blog/src/lib.rs |
| blog_agreement.dfy | `BlogAgreement` | both blog crates give the same visible text for the same writing session |
| linked_list.dfy | `LinkedLists` | list/src/lib.rs |
| stack.dfy | `Stacks` | list/src/stack.rs |
| queue.dfy | `Queues` | list/src/queue.rs |
| minigrep.dfy | `Minigrep` | minigrep/src/lib.rs (`Config::build`, `search` and the parts of `str::lines` / `str::contains` it relies on) |
| limit_tracker.dfy | `LimitTrackers` | limit-tracker/src/lib.rs |

Modelling choices:

- Each node chain becomes a `seq` whose first element is the head node.
- list/src/stack.rs repeats list/src/lib.rs's `push`, `pop`, `length` and iterator code on its own struct, and the model repeats them in `Stacks` in the same way.
- The list's and stack's `length` counters are kept as separate fields. `Valid` says the counter equals the number of nodes, and every operation preserves it.
- The queue's raw tail pointer is abstracted to a boolean `hasTail`. When the tail is set, it always points at the last node. `Valid` is the queue's invariant: the tail is set exactly when there is a head. On a queue with a head but no tail, `Enqueue` and `Dequeue` still follow the source's branches: enqueueing replaces the head. A queue with a tail but no head has no counterpart in the source. The abstraction assumes the tail names the last node of the head chain, and in Rust that state would be unreachable and would leave a dangling pointer.
- Mutating methods (`&mut self`) become functions that return the new value. Where the Rust method also returns something, the Dafny function returns a pair.
- The messenger is modelled by the log of messages it has been sent (`LimitTracker.sent`).
- `value as f64 / max as f64` is modelled as an exact `real` division (`RatioAtLeast`). A zero `max` follows IEEE 754:
  - a positive value divided by zero gives +infinity, which passes every threshold, so the fatal message is sent;
  - `0 / 0` gives NaN, which passes no threshold, so nothing is sent.
- `str::lines` splits after each `'\n'`. A line that ended in `"\r\n"` also loses its `'\r'`. A final line ending does not start an extra empty line, and a final line with no `'\n'` keeps any trailing `'\r'`.
- `str::contains` is exact substring search on `seq<char>`.

## Model

| member | source | states |
|---|---|---|
| BlogState.StateRequestReview | blog_state/src/lib.rs:59-83 | Only Draft moves on, one step, to PendingReview. PendingReview and Published are returned as they are. |
| BlogState.StateApprove | blog_state/src/lib.rs:59-83 | Only PendingReview moves on, one step, to Published. Draft and Published are returned as they are. |
| BlogState.New | blog_state/src/lib.rs:16-21 | A new post shows "" and keeps showing "" whatever text is then added. The added text is nonetheless stored in full. |
| BlogState.AddText | blog_state/src/lib.rs:23-25 | The old text is kept as a prefix, the added text follows it, and the state is unchanged in every state. |
| BlogState.Content | blog_state/src/lib.rs:27-32 | The text is visible only in Published, where `StateContent` (the model of the trait's `content`, overridden only by `Published`) lends it out. Every other state, and a taken (`None`) state, shows "". |
| BlogState.RequestReview | blog_state/src/lib.rs:34-38 | Draft becomes PendingReview. Every other post, including one whose state was taken, is returned unchanged. The text is never touched. |
| BlogState.Approve | blog_state/src/lib.rs:40-44 | PendingReview becomes Published. Every other post, including one whose state was taken, is returned unchanged. The text is never touched. |
| BlogState.NewPostShowsNothing | blog_state/src/lib.rs:92-97 | A new post shows "", and still shows "" after text is added, although the text is stored. |
| BlogState.DraftTransitions | blog_state/src/lib.rs:135-146 | In Draft, `approve` is a no-op and `request_review` moves to PendingReview. Neither shows the text. |
| BlogState.PendingReviewTransitions | blog_state/src/lib.rs:148-160 | In PendingReview, `request_review` is a no-op and `approve` publishes the post, making its text visible. |
| BlogState.PublishedIsAbsorbing | blog_state/src/lib.rs:162-175 | Published is left unchanged by both transitions, and the text stays visible. |
| BlogState.TakenStateIsInert | blog_state/src/lib.rs:124-132 | With the state taken, `content()` is "" and both transitions leave the post unchanged. |
| BlogState.RunContent | blog_state/src/lib.rs:23-44 | After any sequence of calls, the stored text is the old text followed by every added text in call order. Transitions never change it. |
| BlogState.PublishedStaysPublished | blog_state/src/lib.rs:77-83 | No sequence of calls leaves Published. |
| BlogState.TakenStaysTaken | blog_state/src/lib.rs:34-44 | No sequence of calls restores a taken state. |
| BlogState.PendingReviewPublishes | blog_state/src/lib.rs:68-83 | From PendingReview, a sequence of calls ends in Published exactly when it contains an `approve`. Otherwise the post stays in PendingReview. |
| BlogState.DraftPublishes | blog_state/src/lib.rs:59-83 | From Draft, a sequence of calls ends in Published exactly when some `request_review` is later followed by an `approve`. |
| BlogState.VisibleContent | blog_state/src/lib.rs:15-87 | For a new post and any sequence of calls, `content()` is all the added text if a review was later approved, and "" otherwise. |
| BlogState.PublishRoundTrip | blog_state/src/lib.rs:107-114 | new, add_text(t), request_review, approve, then content() returns exactly t. |
| Blog.New | blog/src/lib.rs:13-17 | A new draft carries no text: adding a text to it stores exactly that text, and reviewing and approving it unchanged shows "". |
| Blog.AddText | blog/src/lib.rs:20-22 | The draft's old text is kept as a prefix and the added text follows it. |
| Blog.RequestReview | blog/src/lib.rs:24-28 | Once the review is approved, the published post shows exactly the draft's text. |
| Blog.AddAllAppends | blog/src/lib.rs:20-22 | Repeated `add_text` calls accumulate their texts in call order. |
| Blog.PublishShowsWhatWasWritten | blog/src/lib.rs:32-54 | new, any number of add_text calls, request_review, approve (`Approve`, lines 32-36), then content() (`Content`, lines 40-42) returns the concatenation of what was written, as the test at lines 49-54 checks. |
| BlogAgreement.AddAllAgrees | blog/src/lib.rs:20-22 | Adding the same texts to a state-pattern post and to a typestate draft stores the same text, and the post's state is unchanged (blog_state/src/lib.rs:23-25). |
| BlogAgreement.SameWorkflowSameContent | blog/src/lib.rs:13-43 | For the same texts, the two crates' add, review, approve, content sequences show the same text. |
| LinkedLists.New | list/src/lib.rs:54-59 | A new list is empty, satisfies the counter invariant and has `length()` 0. |
| LinkedLists.Push | list/src/lib.rs:60-67 | The pushed item becomes the head in front of the old nodes. The counter goes up by one, and the invariant is kept. |
| LinkedLists.Pop | list/src/lib.rs:68-74 | `pop` returns None exactly when the list is empty, and then leaves the list unchanged. Otherwise it returns the head, removes only that node and decrements the counter. The invariant is kept. |
| LinkedLists.Length | list/src/lib.rs:75-77 | For a valid list, `length()` is the number of stored items. |
| LinkedLists.Drain | list/src/lib.rs:80-86 | Iterating with `next` (which is `pop`) until None yields every stored item, head first. |
| LinkedLists.PopUndoesPush | list/src/lib.rs:60-74 | The item just pushed is the next one popped, and the list is restored. |
| LinkedLists.PopEmpty | list/src/lib.rs:68-74 | Popping a valid list of length 0 returns None and leaves the list and its counter unchanged. |
| LinkedLists.PushAllStacks | list/src/lib.rs:60-67 | Pushing a batch puts it on top in reverse order, counts every item and keeps the invariant. |
| LinkedLists.DrainIsReversePushOrder | list/src/lib.rs:110-121 | LIFO: iterating a list built by pushes yields the items in reverse push order, and `length()` counts them all. |
| Stacks.New | list/src/stack.rs:53-58 | A new stack is empty and valid, with `length()` 0 and `peek()` None. |
| Stacks.Push | list/src/stack.rs:59-66 | The pushed item becomes the top, so `peek` returns it, and the old items lie below it. The counter goes up by one, and the invariant is kept. |
| Stacks.Pop | list/src/stack.rs:67-73 | `pop` returns what `peek` would. On an empty stack that is None, and the stack is unchanged. Otherwise the top node is removed and the counter decremented. The invariant is kept. |
| Stacks.Length | list/src/stack.rs:77-79 | For a valid stack, `length()` is the number of stored items. |
| Stacks.Drain | list/src/stack.rs:82-88 | Iterating with `next` (which is `pop`) until None yields every stored item, top first. |
| Stacks.PopUndoesPush | list/src/stack.rs:59-73 | The item just pushed is the one popped, and the stack is restored. |
| Stacks.PeekAgreesWithPop | list/src/stack.rs:74-76 | `Peek`, the model of `peek`, returns the item a later `pop` returns, without removing it. Peeking an empty stack agrees with a `pop` that changes nothing (the tests at lines 94-112). |
| Stacks.PushAllStacks | list/src/stack.rs:59-66 | Pushing a batch puts it on top in reverse order, counts every item and keeps the invariant. |
| Stacks.DrainIsReversePushOrder | list/src/stack.rs:136-147 | LIFO: the last item pushed is on top, iteration yields the items in reverse push order, and `length()` counts them all. |
| Stacks.PopOnEmpty | list/src/stack.rs:114-134 | On a valid stack, `pop` returns None exactly when `length()` is 0. It then leaves the stack unchanged, and `peek` is None too. |
| Queues.New | list/src/queue.rs:33-38 | A new queue is empty and valid, and `dequeue` on it returns None. |
| Queues.Enqueue | list/src/queue.rs:40-52 | With a tail, the item is appended behind the existing items. Without one, the new node becomes the head. The tail is set afterwards, and a valid queue gains exactly the new item at the back. |
| Queues.Dequeue | list/src/queue.rs:54-63 | `dequeue` returns None exactly when there is no head, and then leaves the queue unchanged. Otherwise it returns the earliest item and keeps the rest in order. Removing the last node clears the tail. The invariant is kept. |
| Queues.Drain | list/src/queue.rs:54-63 | Dequeuing until None yields every stored item, head first. |
| Queues.EnqueueAllAppends | list/src/queue.rs:40-52 | Enqueueing a batch into a valid queue appends it in order and keeps the invariant. |
| Queues.DrainIsEnqueueOrder | list/src/queue.rs:70-83 | FIFO: dequeuing everything from a new queue returns the items in enqueue order. |
| Queues.DequeueAfterEnqueue | list/src/queue.rs:40-63 | Enqueueing does not change which item is dequeued next. On an empty queue, the new item comes straight back out and the queue is empty again. |
| Minigrep.NextArg | minigrep/src/lib.rs:64-65 | One step of the argument iterator returns None exactly when no arguments remain. Otherwise it returns the first argument and the rest. |
| Minigrep.Build | minigrep/src/lib.rs:64-78 | Fewer than two arguments (including none) fail with ERROR_MISS_QUERY. Exactly two fail with ERROR_MISS_FILEPATH. Three or more succeed with the second argument as query and the third as file path. |
| Minigrep.BuildIgnoresExtraArgs | minigrep/src/lib.rs:72-77 | Arguments beyond the third do not change the result. |
| Minigrep.BuildRoundTrip | minigrep/src/lib.rs:149-161 | Any config is recovered from `[program, query, file_path]`. |
| Minigrep.StripCr | minigrep/src/lib.rs:94-96 | A line that ends in '\r' loses exactly that one '\r'. Any other line is kept as it is. This is how `str::lines` treats a "\r\n" ending. |
| Minigrep.Lines | minigrep/src/lib.rs:94-96 | No line produced by `lines` contains '\n', and the empty text has no lines. |
| Minigrep.LinesCrLf | minigrep/src/lib.rs:94-96 | A first line ended by "\r\n" comes out of `lines` without the '\r' and the '\n', and the text after it is split on its own. |
| Minigrep.LinesRoundTrip | minigrep/src/lib.rs:94-96 | For a text without '\r', ending each line with '\n' gives back the text, with a final '\n' added only if it had none. `lines` loses nothing else. |
| Minigrep.ContainsIffOccurs | minigrep/src/lib.rs:94-96 | `Contains`, the model of `str::contains`, holds exactly when the query occurs at some offset of the line. |
| Minigrep.Matching | minigrep/src/lib.rs:94-96 | Every kept line contains the query, and no more lines are kept than were given. |
| Minigrep.MatchingMembers | minigrep/src/lib.rs:94-96 | A line is kept exactly when it is one of the lines and contains the query. |
| Minigrep.MatchingDistributes | minigrep/src/lib.rs:94-96 | Filtering commutes with concatenation, so kept lines stay in their original order. |
| Minigrep.Search | minigrep/src/lib.rs:94-96 | `search` returns exactly the lines of the text that contain the query, in their original order. Nothing that contains it is dropped. |
| Minigrep.CaseSensitive | minigrep/src/lib.rs:164-172 | Matching is case-sensitive: "yes" is found in "say yes," but not in "say Yes,". |
| LimitTrackers.RatioAtLeastIff | limit-tracker/src/lib.rs:30-36 | For a positive max, comparing `value / max` with a threshold `num / den` is the integer comparison `den * value >= num * max`. |
| LimitTrackers.AlertThresholds | limit-tracker/src/lib.rs:30-38 | `Alert`, the model of the `if` chain in `set_value`, picks the message. It is WARNING_FATAL iff value >= max (and value > 0), WARNING_URGENT iff 90% <= ratio < 100%, WARNING iff 75% <= ratio < 90%, and nothing below 75% (or when value is 0). |
| LimitTrackers.AlertIsMonotonic | limit-tracker/src/lib.rs:32-38 | A larger value never produces a milder message for the same max. |
| LimitTrackers.SetValue | limit-tracker/src/lib.rs:27-39 | Stores the value and keeps max. Keeps every earlier message and sends at most one new one: fatal at or over max, urgent from 90%, a warning from 75%, otherwise nothing. |
| LimitTrackers.SetValuesSendsAtMostOnePerCall | limit-tracker/src/lib.rs:27-39 | Over any run of updates, max is unchanged, the last value is the one stored, earlier messages are kept, and at most one message is sent per update. |
| LimitTrackers.CrateTests | limit-tracker/src/lib.rs:65-96 | The crate's three tests, each on a fresh tracker built by `New` (the model of `LimitTracker::new`, lines 19-25) with a max of 100: 80 sends WARNING, 90 sends WARNING_URGENT and 100 sends WARNING_FATAL. |
| LimitTrackers.QuietBelowThreeQuarters | limit-tracker/src/lib.rs:32-38 | Below 75% of max, whatever max is, `set_value` sends nothing and the log is unchanged. |
| LimitTrackers.QuietAtSeventyFour | limit-tracker/src/lib.rs:32-38 | On a fresh tracker with a max of 100, the value 74, just below the first threshold, sends nothing. |

## Left out

- threadpool/src/lib.rs (`Worker`, `ThreadPool`, its `Drop`): the pool exists for its threads, mpsc channel, mutex and join-on-drop. None of that is sequential logic. `add` is trivial.
- threadpool/src/main.rs: a TCP listener, HTTP handling, file reads and sleeps. It is all I/O.
- minigrep `run` (minigrep/src/lib.rs:82-92): it reads a file and prints to stdout. Only `build` and `search` are pure.
- The demo mains are left out. list/src/main.rs only prints. blog/src/main.rs imports a `Post` that blog/src/lib.rs does not define, and limit-tracker/src/main.rs adds to a `LimitTracker` with `+=` (line 19), which it does not support, so neither compiles against its library and neither is a behavioural reference.
- Iterator adapters such as `filter`, which the list tests use, are left out. `Drain` models `for x in list`, whose `next` is `pop`.
- The raw pointers and `unsafe` block of `Queue::enqueue` are left out. The tail pointer is abstracted to whether it is set, since it always names the last node.
- `Box`, ownership and borrowing are not modelled: the workflows are values.
- LinkedLists.Push: the `i32` counter is an unbounded `int`. The overflow after 2^31 - 1 pushes, a panic in debug builds and wrap-around in release builds, is not modelled.
- Stacks.Push: the `i32` counter is an unbounded `int`, as for `LinkedLists.Push`.
- LimitTrackers.SetValue: `usize` values are unbounded `nat`s, and the `f64` division is exact. So f64 rounding is not modelled. Rounding can only change the outcome when a ratio lies within about 2^-53 of a threshold, which needs values beyond 2^50.
- Minigrep.Build: `build` takes any `impl Iterator<Item = String>`, and the model takes the arguments as a `seq<string>`. That assumes a fused iterator, one that keeps returning None once it has. `build` calls `next()` again after a None (minigrep/src/lib.rs:65-72), and a non-fused iterator could then yield an argument, which the model does not cover. Every caller in the crate passes a fused iterator.
- Minigrep.Lines: only '\n' and "\r\n" endings are handled, as `str::lines` does. Unicode is treated as a sequence of `char` with no normalisation.
- Minigrep.CaseSensitive: the crate's `case_search` test, on its six-line text, is modelled only through the two lines that decide it, "say Yes," and "say yes,".

=== FILE: blog.dfy ===
/**
 * The `blog` crate: the same post workflow written as typestate. Each
 * state is its own type, and each transition consumes the old value and
 * returns one of the next type, so a draft's text cannot be read at all.
 */
module Blog {

  /** A post still being written. */
  datatype Draft = Draft(content: string)

  /** A post waiting for approval; it has no way to add text or be read. */
  datatype PendingReview = PendingReview(content: string)

  /** An approved post; only this type can be read. */
  datatype Published = Published(content: string)

  /** `blog::new`: an empty draft. */
  function New(): (d: Draft)
    ensures |d.content| == 0
    ensures Content(Approve(RequestReview(d))) == ""
    ensures forall text :: AddText(d, text).content == text
  {
    Draft("")
  }

  /** `Draft::add_text`: the old text is kept and `text` follows it. */
  function AddText(d: Draft, text: string): (r: Draft)
    ensures |r.content| == |d.content| + |text|
    ensures r.content[..|d.content|] == d.content
    ensures r.content[|d.content|..] == text
  {
    Draft(d.content + text)
  }

  /** `Draft::request_review`: the text moves, unchanged, into the new state. */
  function RequestReview(d: Draft): (r: PendingReview)
    ensures r.content == d.content
    ensures Content(Approve(r)) == d.content
  {
    PendingReview(d.content)
  }

  /** `PendingReview::approve`: the text moves, unchanged, into the new state. */
  function Approve(p: PendingReview): (r: Published)
    ensures r.content == p.content
  {
    Published(p.content)
  }

  /** `Published::content`: the text that was written. */
  function Content(p: Published): (r: string)
    ensures r == p.content
  {
    p.content
  }

  /** Concatenation of `texts`, first first. */
  function Concat(texts: seq<string>): string
    decreases |texts|
  {
    if |texts| == 0 then "" else texts[0] + Concat(texts[1..])
  }

  /** Add each of `texts` to the draft in turn. */
  function AddAll(d: Draft, texts: seq<string>): Draft
    decreases |texts|
  {
    if |texts| == 0 then d else AddAll(AddText(d, texts[0]), texts[1..])
  }

  /** Repeated `add_text` calls accumulate their texts in call order. */
  lemma {:induction false} AddAllAppends(d: Draft, texts: seq<string>)
    ensures AddAll(d, texts).content == d.content + Concat(texts)
    decreases |texts|
  {
    if |texts| != 0 {
      AddAllAppends(AddText(d, texts[0]), texts[1..]);
      assert d.content + texts[0] + Concat(texts[1..]) == d.content + (texts[0] + Concat(texts[1..]));
    }
  }

  /**
   * The whole workflow: whatever is written into a new draft is exactly
   * what the published post shows.
   */
  lemma PublishShowsWhatWasWritten(texts: seq<string>)
    ensures Content(Approve(RequestReview(AddAll(New(), texts)))) == Concat(texts)
  {
    AddAllAppends(New(), texts);
  }
}

=== FILE: blog_agreement.dfy ===
/**
 * The two blog crates implement one workflow. This module relates them:
 * driving the state-pattern `Post` through the only order the typestate
 * API allows yields the same visible text as the typestate version.
 */
module BlogAgreement {
  import BlogState
  import Blog

  /** Add each of `texts` to a state-pattern post in turn. */
  function AddAllToPost(p: BlogState.Post, texts: seq<string>): BlogState.Post
    decreases |texts|
  {
    if |texts| == 0 then p else AddAllToPost(BlogState.AddText(p, texts[0]), texts[1..])
  }

  /** Adding text to a post keeps its state and appends like a typestate draft does. */
  lemma {:induction false} AddAllAgrees(p: BlogState.Post, d: Blog.Draft, texts: seq<string>)
    requires p.content == d.content
    ensures AddAllToPost(p, texts).content == Blog.AddAll(d, texts).content
    ensures AddAllToPost(p, texts).state == p.state
    decreases |texts|
  {
    if |texts| != 0 {
      AddAllAgrees(BlogState.AddText(p, texts[0]), Blog.AddText(d, texts[0]), texts[1..]);
    }
  }

  /** Both crates publish the same text for the same writing session. */
  lemma SameWorkflowSameContent(texts: seq<string>)
    ensures BlogState.Content(BlogState.Approve(BlogState.RequestReview(AddAllToPost(BlogState.New(), texts))))
         == Blog.Content(Blog.Approve(Blog.RequestReview(Blog.AddAll(Blog.New(), texts))))
  {
    AddAllAgrees(BlogState.New(), Blog.New(), texts);
  }
}

=== FILE: blog_state.dfy ===
/**
 * The `blog_state` crate: a post workflow written with the state pattern.
 * A post holds an optional boxed state (Draft, PendingReview or Published)
 * and the text added so far; the text is visible only once published.
 */
module BlogState {
  import opened Wrappers

  /** The three implementors of the crate's `State` trait. */
  datatype State = Draft | PendingReview | Published

  /**
   * A `Post`. `state` is `None` only after the box has been taken out of
   * the post (the crate's own tests do this with `state.take()`).
   */
  datatype Post = Post(state: Option<State>, content: string)

  /** How far along the workflow a state is. */
  function Stage(s: State): nat
  {
    match s
    case Draft => 0
    case PendingReview => 1
    case Published => 2
  }

  // ---------------------------------------------------------------------
  // The `State` trait, one function per trait method
  // ---------------------------------------------------------------------

  /** `State::request_review`: only a draft moves on, to pending review. */
  function StateRequestReview(s: State): (r: State)
    ensures Stage(s) <= Stage(r) <= Stage(s) + 1
    ensures r != Published || s == Published
    ensures r == s <==> s != Draft
  {
    match s
    case Draft => PendingReview
    case PendingReview => s
    case Published => s
  }

  /** `State::approve`: only a pending review moves on, to published. */
  function StateApprove(s: State): (r: State)
    ensures Stage(s) <= Stage(r) <= Stage(s) + 1
    ensures r != PendingReview || s == PendingReview
    ensures r == s <==> s != PendingReview
  {
    match s
    case Draft => s
    case PendingReview => Published
    case Published => s
  }

  /**
   * `State::content`: the trait's default returns the empty string; only
   * `Published` overrides it to lend out the post's text.
   */
  function StateContent(s: State, post: Post): (r: string)
    ensures s == Published ==> r == post.content
    ensures s != Published ==> r == ""
  {
    match s
    case Published => post.content
    case _ => ""
  }

  // ---------------------------------------------------------------------
  // `Post`
  // ---------------------------------------------------------------------

  /** `Post::new`: a draft with no text. */
  function New(): (p: Post)
    ensures p.state == Some(Draft)
    ensures p.content == ""
    ensures Content(p) == ""
    ensures forall txt :: Content(AddText(p, txt)) == "" && AddText(p, txt).content == txt
  {
    Post(Some(Draft), "")
  }

  /** `Post::add_text`: appends in every state and leaves the state alone. */
  function AddText(p: Post, txt: string): (r: Post)
    ensures r.state == p.state
    ensures |r.content| == |p.content| + |txt|
    ensures r.content[..|p.content|] == p.content
    ensures r.content[|p.content|..] == txt
  {
    p.(content := p.content + txt)
  }

  /**
   * `Post::content`: the text is visible only in `Published`; every other
   * state, and a post whose state was taken, shows the empty string.
   */
  function Content(p: Post): (r: string)
    ensures r == p.content || r == ""
    ensures p.state == Some(Published) ==> r == p.content
    ensures p.state != Some(Published) ==> r == ""
  {
    match p.state
    case Some(s) => StateContent(s, p)
    case None => ""
  }

  /**
   * `Post::request_review`: takes the state out and puts back what the
   * state's own transition returns; a taken state stays `None`. The text
   * is never touched.
   */
  function RequestReview(p: Post): (r: Post)
    ensures r.content == p.content
    ensures r.state.None? <==> p.state.None?
    ensures p.state == Some(Draft) ==> r.state == Some(PendingReview)
    ensures p.state != Some(Draft) ==> r == p
  {
    match p.state
    case Some(s) => Post(Some(StateRequestReview(s)), p.content)
    case None => p
  }

  /**
   * `Post::approve`: takes the state out and puts back what the state's
   * own transition returns; a taken state stays `None`. The text is never
   * touched.
   */
  function Approve(p: Post): (r: Post)
    ensures r.content == p.content
    ensures r.state.None? <==> p.state.None?
    ensures p.state == Some(PendingReview) ==> r.state == Some(Published)
    ensures p.state != Some(PendingReview) ==> r == p
  {
    match p.state
    case Some(s) => Post(Some(StateApprove(s)), p.content)
    case None => p
  }

  // ---------------------------------------------------------------------
  // Properties of the workflow
  // ---------------------------------------------------------------------

  /** A fresh post shows nothing, even after text has been added. */
  lemma NewPostShowsNothing(txt: string)
    ensures Content(New()) == ""
    ensures Content(AddText(New(), txt)) == ""
    ensures AddText(New(), txt).content == txt
  {
  }

  /** A draft is not published by `approve`; `request_review` moves it on. */
  lemma DraftTransitions(p: Post)
    requires p.state == Some(Draft)
    ensures Approve(p) == p
    ensures RequestReview(p) == Post(Some(PendingReview), p.content)
    ensures Content(p) == "" && Content(RequestReview(p)) == ""
  {
  }

  /** A pending review ignores `request_review`; `approve` publishes it. */
  lemma PendingReviewTransitions(p: Post)
    requires p.state == Some(PendingReview)
    ensures RequestReview(p) == p
    ensures Approve(p) == Post(Some(Published), p.content)
    ensures Content(p) == "" && Content(Approve(p)) == p.content
  {
  }

  /** `Published` is absorbing, and the text stays visible. */
  lemma PublishedIsAbsorbing(p: Post)
    requires p.state == Some(Published)
    ensures RequestReview(p) == p && Approve(p) == p
    ensures Content(RequestReview(p)) == p.content
    ensures Content(Approve(p)) == p.content
  {
  }

  /** With its state taken, a post shows nothing and never moves. */
  lemma TakenStateIsInert(p: Post)
    requires p.state.None?
    ensures Content(p) == ""
    ensures RequestReview(p) == p && Approve(p) == p
  {
  }

  /** One call on a `Post`'s public interface. */
  datatype Call = AddTextCall(text: string) | RequestReviewCall | ApproveCall

  /** Apply one call. */
  function Step(p: Post, c: Call): Post
  {
    match c
    case AddTextCall(t) => AddText(p, t)
    case RequestReviewCall => RequestReview(p)
    case ApproveCall => Approve(p)
  }

  /** Apply a sequence of calls, first call first. */
  function Run(p: Post, calls: seq<Call>): Post
    decreases |calls|
  {
    if |calls| == 0 then p else Run(Step(p, calls[0]), calls[1..])
  }

  /** The concatenation of the texts added by `calls`, in call order. */
  function Texts(calls: seq<Call>): string
    decreases |calls|
  {
    if |calls| == 0 then ""
    else (if calls[0].AddTextCall? then calls[0].text else "") + Texts(calls[1..])
  }

  /** Some `approve` appears among `calls`. */
  predicate HasApprove(calls: seq<Call>)
  {
    exists j :: 0 <= j < |calls| && calls[j].ApproveCall?
  }

  /** Some `request_review` appears among `calls`, followed later by an `approve`. */
  predicate HasReviewThenApprove(calls: seq<Call>)
  {
    exists i, j :: 0 <= i < j < |calls| && calls[i].RequestReviewCall? && calls[j].ApproveCall?
  }

  /**
   * Whatever the calls, the stored text is the old text followed by every
   * added text in order: transitions never modify it.
   */
  lemma {:induction false} RunContent(p: Post, calls: seq<Call>)
    ensures Run(p, calls).content == p.content + Texts(calls)
    decreases |calls|
  {
    if |calls| != 0 {
      RunContent(Step(p, calls[0]), calls[1..]);
      var t := if calls[0].AddTextCall? then calls[0].text else "";
      assert Step(p, calls[0]).content == p.content + t;
      assert p.content + t + Texts(calls[1..]) == p.content + (t + Texts(calls[1..]));
    }
  }

  /** Published is absorbing under any sequence of calls. */
  lemma {:induction false} PublishedStaysPublished(p: Post, calls: seq<Call>)
    requires p.state == Some(Published)
    ensures Run(p, calls).state == Some(Published)
    decreases |calls|
  {
    if |calls| != 0 {
      PublishedStaysPublished(Step(p, calls[0]), calls[1..]);
    }
  }

  /** A taken state stays taken under any sequence of calls. */
  lemma {:induction false} TakenStaysTaken(p: Post, calls: seq<Call>)
    requires p.state.None?
    ensures Run(p, calls).state.None?
    decreases |calls|
  {
    if |calls| != 0 {
      TakenStaysTaken(Step(p, calls[0]), calls[1..]);
    }
  }

  /** From pending review, a post ends published exactly when some `approve` is called. */
  lemma {:induction false} PendingReviewPublishes(p: Post, calls: seq<Call>)
    requires p.state == Some(PendingReview)
    ensures Run(p, calls).state == Some(Published) <==> HasApprove(calls)
    ensures !HasApprove(calls) ==> Run(p, calls).state == Some(PendingReview)
    decreases |calls|
  {
    if |calls| != 0 {
      var q := Step(p, calls[0]);
      var rest := calls[1..];
      if calls[0].ApproveCall? {
        PublishedStaysPublished(q, rest);
        assert HasApprove(calls) by { assert calls[0].ApproveCall?; }
      } else {
        PendingReviewPublishes(q, rest);
        if HasApprove(calls) {
          var j :| 0 <= j < |calls| && calls[j].ApproveCall?;
          assert rest[j - 1].ApproveCall?;
        }
        if HasApprove(rest) {
          var j :| 0 <= j < |rest| && rest[j].ApproveCall?;
          assert calls[j + 1].ApproveCall?;
        }
      }
    }
  }

  /**
   * From a draft, a post ends published exactly when some `request_review`
   * is later followed by an `approve`.
   */
  lemma {:induction false} DraftPublishes(p: Post, calls: seq<Call>)
    requires p.state == Some(Draft)
    ensures Run(p, calls).state == Some(Published) <==> HasReviewThenApprove(calls)
    decreases |calls|
  {
    if |calls| != 0 {
      var q := Step(p, calls[0]);
      var rest := calls[1..];
      if calls[0].RequestReviewCall? {
        PendingReviewPublishes(q, rest);
        if HasReviewThenApprove(calls) {
          var i, j :| 0 <= i < j < |calls| && calls[i].RequestReviewCall? && calls[j].ApproveCall?;
          assert rest[j - 1].ApproveCall?;
        }
        if HasApprove(rest) {
          var j :| 0 <= j < |rest| && rest[j].ApproveCall?;
          assert calls[0].RequestReviewCall? && calls[j + 1].ApproveCall?;
        }
      } else {
        DraftPublishes(q, rest);
        if HasReviewThenApprove(calls) {
          var i, j :| 0 <= i < j < |calls| && calls[i].RequestReviewCall? && calls[j].ApproveCall?;
          assert rest[i - 1].RequestReviewCall? && rest[j - 1].ApproveCall?;
        }
        if HasReviewThenApprove(rest) {
          var i, j :| 0 <= i < j < |rest| && rest[i].RequestReviewCall? && rest[j].ApproveCall?;
          assert calls[i + 1].RequestReviewCall? && calls[j + 1].ApproveCall?;
        }
      }
    }
  }

  /**
   * What a reader of a new post sees after any sequence of calls: all the
   * added text once it has been reviewed and then approved, and nothing
   * before that.
   */
  lemma VisibleContent(calls: seq<Call>)
    ensures Content(Run(New(), calls)) == (if HasReviewThenApprove(calls) then Texts(calls) else "")
  {
    RunContent(New(), calls);
    DraftPublishes(New(), calls);
  }

  /** The crate's end-to-end test: add text, request review, approve, read it back. */
  lemma PublishRoundTrip(txt: string)
    ensures Content(Approve(RequestReview(AddText(New(), txt)))) == txt
  {
  }
}

=== FILE: limit_tracker.dfy ===
/**
 * The `limit-tracker` crate: a tracker that records a value against a
 * maximum and, on each update, tells its messenger how close the value is
 * to the maximum. The messenger is modelled by the log of messages it has
 * been sent.
 */
module LimitTrackers {
  import opened Wrappers

  const WARNING: string := "Warning: You've used up over 75% of your quota!"
  const WARNING_URGENT: string := "Urgent warning: You've used up over 90% of your quota!"
  const WARNING_FATAL: string := "Error: You are over your quota!"

  /** The tracker's `value` and `max`, and `sent`, the messenger's log so far. */
  datatype LimitTracker = LimitTracker(value: nat, max: nat, sent: seq<string>)

  /**
   * `value as f64 / max as f64 >= threshold` for a positive threshold, with
   * the division exact. Dividing by a zero `max` gives +infinity for a
   * positive value, which passes every threshold, and NaN for a zero value,
   * which passes none.
   */
  predicate RatioAtLeast(value: nat, max: nat, threshold: real)
    requires threshold > 0.0
  {
    if max == 0 then value > 0
    else (value as real) / (max as real) >= threshold
  }

  /** The message `set_value` sends for a value, if any: the most severe level reached. */
  function Alert(value: nat, max: nat): Option<string>
  {
    if RatioAtLeast(value, max, 1.0) then Some(WARNING_FATAL)
    else if RatioAtLeast(value, max, 0.9) then Some(WARNING_URGENT)
    else if RatioAtLeast(value, max, 0.75) then Some(WARNING)
    else None
  }

  /** A ratio compared with `num/den` is a cross-multiplied integer comparison. */
  lemma RatioAtLeastIff(value: nat, max: nat, num: nat, den: nat)
    requires max > 0 && num > 0 && den > 0
    ensures RatioAtLeast(value, max, (num as real) / (den as real)) <==> den * value >= num * max
  {
    var v, m, n, d := value as real, max as real, num as real, den as real;
    assert (den * value) as real == d * v && (num * max) as real == n * m;
    assert v / m - n / d == (v * d - n * m) / (m * d);
    assert m * d > 0.0;
  }

  /**
   * The three levels as integer comparisons: at or over the maximum is
   * fatal, from 90% urgent, from 75% a warning, and below that nothing is
   * sent. A zero maximum sends the fatal message for any positive value.
   */
  lemma AlertThresholds(value: nat, max: nat)
    ensures Alert(value, max) == Some(WARNING_FATAL) <==> value >= max && value > 0
    ensures Alert(value, max) == Some(WARNING_URGENT) <==> value < max && 10 * value >= 9 * max
    ensures Alert(value, max) == Some(WARNING) <==> 10 * value < 9 * max && 4 * value >= 3 * max
    ensures Alert(value, max) == None <==> 4 * value < 3 * max || value == 0
  {
    if max > 0 {
      RatioAtLeastIff(value, max, 1, 1);
      RatioAtLeastIff(value, max, 9, 10);
      RatioAtLeastIff(value, max, 3, 4);
      assert (1 as real) / (1 as real) == 1.0;
      assert (9 as real) / (10 as real) == 0.9;
      assert (3 as real) / (4 as real) == 0.75;
    }
  }

  /** How severe a sent message is: nothing 0, warning 1, urgent 2, fatal 3. */
  function Severity(m: Option<string>): nat
  {
    if m == Some(WARNING_FATAL) then 3
    else if m == Some(WARNING_URGENT) then 2
    else if m == Some(WARNING) then 1
    else 0
  }

  /** A larger value never produces a milder message for the same maximum. */
  lemma AlertIsMonotonic(v1: nat, v2: nat, max: nat)
    requires v1 <= v2
    ensures Severity(Alert(v1, max)) <= Severity(Alert(v2, max))
  {
    AlertThresholds(v1, max);
    AlertThresholds(v2, max);
  }

  /** `LimitTracker::new`: value 0 and the given maximum; nothing is sent. */
  function New(sent: seq<string>, max: nat): (t: LimitTracker)
    ensures t.value == 0 && t.max == max
    ensures t.sent == sent
  {
    LimitTracker(0, max, sent)
  }

  /**
   * `LimitTracker::set_value`: stores the value, then sends at most one
   * message, chosen by how the value compares with the maximum.
   */
  function SetValue(t: LimitTracker, value: nat): (r: LimitTracker)
    ensures r.value == value && r.max == t.max
    ensures |t.sent| <= |r.sent| <= |t.sent| + 1
    ensures r.sent[..|t.sent|] == t.sent
    ensures r.sent == t.sent + [WARNING_FATAL] <==> value >= t.max && value > 0
    ensures r.sent == t.sent + [WARNING_URGENT] <==> value < t.max && 10 * value >= 9 * t.max
    ensures r.sent == t.sent + [WARNING] <==> 10 * value < 9 * t.max && 4 * value >= 3 * t.max
    ensures r.sent == t.sent <==> 4 * value < 3 * t.max || value == 0
  {
    AlertThresholds(value, t.max);
    match Alert(value, t.max)
    case Some(message) => LimitTracker(value, t.max, t.sent + [message])
    case None => LimitTracker(value, t.max, t.sent)
  }

  /** Apply `set_value` for each of `values` in turn. */
  function SetValues(t: LimitTracker, values: seq<nat>): LimitTracker
    decreases |values|
  {
    if |values| == 0 then t else SetValues(SetValue(t, values[0]), values[1..])
  }

  /** Over any run of updates the maximum stays put and the last value is the one stored. */
  lemma {:induction false} SetValuesKeepsSettings(t: LimitTracker, values: seq<nat>)
    ensures SetValues(t, values).max == t.max
    ensures |values| > 0 ==> SetValues(t, values).value == values[|values| - 1]
    ensures |values| == 0 ==> SetValues(t, values).value == t.value
    decreases |values|
  {
    if |values| != 0 {
      SetValuesKeepsSettings(SetValue(t, values[0]), values[1..]);
      if |values| > 1 {
        assert values[1..][|values| - 2] == values[|values| - 1];
      }
    }
  }

  /** Over any run of updates earlier messages are kept and at most one is sent per update. */
  lemma {:induction false} SetValuesExtendsLog(t: LimitTracker, values: seq<nat>)
    ensures |t.sent| <= |SetValues(t, values).sent| <= |t.sent| + |values|
    ensures SetValues(t, values).sent[..|t.sent|] == t.sent
    decreases |values|
  {
    if |values| != 0 {
      var t' := SetValue(t, values[0]);
      SetValuesExtendsLog(t', values[1..]);
      var final := SetValues(t', values[1..]).sent;
      assert final[..|t.sent|] == final[..|t'.sent|][..|t.sent|];
    }
  }

  /**
   * Over any run of updates the maximum stays put, the last value is the
   * one stored, earlier messages are kept, and at most one message is sent
   * per update.
   */
  lemma SetValuesSendsAtMostOnePerCall(t: LimitTracker, values: seq<nat>)
    ensures SetValues(t, values).max == t.max
    ensures |values| > 0 ==> SetValues(t, values).value == values[|values| - 1]
    ensures |values| == 0 ==> SetValues(t, values).value == t.value
    ensures |t.sent| <= |SetValues(t, values).sent| <= |t.sent| + |values|
    ensures SetValues(t, values).sent[..|t.sent|] == t.sent
  {
    SetValuesKeepsSettings(t, values);
    SetValuesExtendsLog(t, values);
  }

  /**
   * The crate's three tests: a fresh tracker with a maximum of 100 warns
   * at 80, is urgent at 90 and is fatal at 100.
   */
  lemma CrateTests(sent: seq<string>)
    ensures SetValue(New(sent, 100), 80).sent == sent + [WARNING]
    ensures SetValue(New(sent, 100), 90).sent == sent + [WARNING_URGENT]
    ensures SetValue(New(sent, 100), 100).sent == sent + [WARNING_FATAL]
  {
  }

  /** Below 75% of the maximum, whatever the maximum, nothing is sent. */
  lemma QuietBelowThreeQuarters(t: LimitTracker, value: nat)
    requires 4 * value < 3 * t.max
    ensures SetValue(t, value).sent == t.sent
  {
  }

  /** Just below the first threshold: 74 against a maximum of 100 sends nothing. */
  lemma QuietAtSeventyFour(sent: seq<string>)
    ensures SetValue(New(sent, 100), 74).sent == sent
  {
  }
}

=== FILE: linked_list.dfy ===
/**
 * `list::LinkedList`: a singly linked LIFO list with a length counter.
 * The chain of boxed nodes is abstracted to a sequence whose first
 * element is the head node; the counter is kept as its own field, as in
 * the crate, and `Valid` says it matches the chain.
 */
module LinkedLists {
  import opened Wrappers
  import opened Sequences

  /** `items[0]` is the head node's data; `length` is the stored counter. */
  datatype LinkedList<T> = LinkedList(items: seq<T>, length: int)

  /** The counter equals the number of nodes in the chain. */
  predicate Valid<T>(l: LinkedList<T>)
  {
    l.length == |l.items|
  }

  /** `LinkedList::new`: no nodes and a zero counter. */
  function New<T>(): (l: LinkedList<T>)
    ensures Valid(l)
    ensures |l.items| == 0 && Length(l) == 0
  {
    LinkedList([], 0)
  }

  /** `LinkedList::push`: the new node becomes the head; the counter goes up by one. */
  function Push<T>(l: LinkedList<T>, data: T): (r: LinkedList<T>)
    ensures Valid(l) ==> Valid(r)
    ensures r.length == l.length + 1
    ensures |r.items| > 0 && r.items[0] == data && r.items[1..] == l.items
  {
    LinkedList([data] + l.items, l.length + 1)
  }

  /**
   * `LinkedList::pop`: takes the head node, if any, returning its data and
   * decrementing the counter. An empty list is returned unchanged with `None`.
   */
  function Pop<T>(l: LinkedList<T>): (r: (LinkedList<T>, Option<T>))
    ensures Valid(l) ==> Valid(r.0)
    ensures r.1.None? <==> |l.items| == 0
    ensures r.1.None? ==> r.0 == l
    ensures r.1.Some? ==> r.1.value == l.items[0] && r.0.items == l.items[1..] && r.0.length == l.length - 1
  {
    if |l.items| == 0 then (l, None)
    else (LinkedList(l.items[1..], l.length - 1), Some(l.items[0]))
  }

  /** `LinkedList::length`: the stored counter, which counts the nodes. */
  function Length<T>(l: LinkedList<T>): (n: int)
    ensures Valid(l) ==> n == |l.items|
  {
    l.length
  }

  /**
   * Iterating the list (`for x in list`): `Iterator::next` is `pop`, called
   * until it returns `None`. The items come out head first.
   */
  function Drain<T>(l: LinkedList<T>): (xs: seq<T>)
    ensures xs == l.items
    decreases |l.items|
  {
    match Pop(l).1
    case None => []
    case Some(x) => [x] + Drain(Pop(l).0)
  }

  /** Push each of `xs` in turn, first first. */
  function PushAll<T>(l: LinkedList<T>, xs: seq<T>): LinkedList<T>
    decreases |xs|
  {
    if |xs| == 0 then l else PushAll(Push(l, xs[0]), xs[1..])
  }

  /** The item just pushed is the next one popped, and the list is otherwise restored. */
  lemma PopUndoesPush<T>(l: LinkedList<T>, data: T)
    ensures Pop(Push(l, data)) == (l, Some(data))
  {
  }

  /** Popping an empty list returns `None` and leaves the counter alone. */
  lemma PopEmpty<T>(l: LinkedList<T>)
    requires Valid(l) && Length(l) == 0
    ensures Pop(l) == (l, None)
  {
  }

  /** Pushing a batch puts it on top of the old items, last pushed first. */
  lemma {:induction false} PushAllItems<T>(l: LinkedList<T>, xs: seq<T>)
    ensures PushAll(l, xs).items == Reverse(xs) + l.items
    decreases |xs|
  {
    if |xs| != 0 {
      var x, rest := xs[0], xs[1..];
      PushAllItems(Push(l, x), rest);
      assert Reverse(xs) == Reverse(rest) + [x];
      AppendAssoc(Reverse(rest), [x], l.items);
    }
  }

  /** Pushing a batch counts every item, and a counter that matched still matches. */
  lemma {:induction false} PushAllCounts<T>(l: LinkedList<T>, xs: seq<T>)
    ensures PushAll(l, xs).length == l.length + |xs|
    ensures |PushAll(l, xs).items| == |l.items| + |xs|
    decreases |xs|
  {
    if |xs| != 0 {
      PushAllCounts(Push(l, xs[0]), xs[1..]);
    }
  }

  /** Pushing a batch puts it on top in reverse order and counts every item. */
  lemma PushAllStacks<T>(l: LinkedList<T>, xs: seq<T>)
    ensures PushAll(l, xs).items == Reverse(xs) + l.items
    ensures PushAll(l, xs).length == l.length + |xs|
    ensures Valid(l) ==> Valid(PushAll(l, xs))
  {
    PushAllItems(l, xs);
    PushAllCounts(l, xs);
  }

  /** LIFO: iterating a list built by pushes yields the items in reverse push order. */
  lemma DrainIsReversePushOrder<T>(xs: seq<T>)
    ensures Drain(PushAll(New(), xs)) == Reverse(xs)
    ensures Length(PushAll(New(), xs)) == |xs|
  {
    PushAllStacks(New(), xs);
  }
}

=== FILE: minigrep.dfy ===
/**
 * The pure parts of the `minigrep` crate: parsing the command line into a
 * `Config`, and `search`, which keeps the lines of a text that contain the
 * query, case-sensitively and in their original order.
 */
module Minigrep {
  import opened Wrappers

  /** The query to look for and the file to look in. */
  datatype Config = Config(query: string, filePath: string)

  const ERROR_MISS_QUERY: string := "miss query string in the arguments"
  const ERROR_MISS_FILEPATH: string := "miss filepath in the arguments"

  // ---------------------------------------------------------------------
  // Config::build
  // ---------------------------------------------------------------------

  /** One `Iterator::next` on the argument iterator: the next argument and what remains. */
  function NextArg(args: seq<string>): (r: (Option<string>, seq<string>))
    ensures r.0.None? <==> |args| == 0
    ensures r.0.Some? ==> [r.0.value] + r.1 == args
    ensures r.0.None? ==> r.1 == args
  {
    if |args| == 0 then (None, args) else (Some(args[0]), args[1..])
  }

  /**
   * `Config::build`: skips the program name, then takes the query and the
   * file path, failing with a distinct error for each one that is missing.
   * Anything after the file path is not read.
   */
  function Build(args: seq<string>): (r: Result<Config, string>)
    ensures r == Failure(ERROR_MISS_QUERY) <==> |args| < 2
    ensures r == Failure(ERROR_MISS_FILEPATH) <==> |args| == 2
    ensures r.Success? <==> |args| >= 3
    ensures r.Success? ==> r.value == Config(args[1], args[2])
  {
    var afterProgram := NextArg(args).1;
    match NextArg(afterProgram)
    case (None, _) => Failure(ERROR_MISS_QUERY)
    case (Some(query), afterQuery) =>
      match NextArg(afterQuery)
      case (None, _) => Failure(ERROR_MISS_FILEPATH)
      case (Some(filePath), _) => Success(Config(query, filePath))
  }

  /** Arguments beyond the third never change the outcome. */
  lemma BuildIgnoresExtraArgs(args: seq<string>, extra: seq<string>)
    requires |args| >= 3
    ensures Build(args + extra) == Build(args)
  {
  }

  /** Any config is recovered from the command line that spells it out. */
  lemma BuildRoundTrip(program: string, c: Config)
    ensures Build([program, c.query, c.filePath]) == Success(c)
  {
  }

  // ---------------------------------------------------------------------
  // str::lines
  // ---------------------------------------------------------------------

  /** Index of the first '\n' in `s`, or `|s|` when there is none. */
  function NewlineIndex(s: string): (i: nat)
    ensures i <= |s|
    ensures i < |s| ==> s[i] == '\n'
    ensures forall k :: 0 <= k < i ==> s[k] != '\n'
    decreases |s|
  {
    if |s| == 0 || s[0] == '\n' then 0 else 1 + NewlineIndex(s[1..])
  }

  /** Drops one trailing carriage return, as a "\r\n" line ending requires. */
  function StripCr(line: string): (r: string)
    ensures r == line || r + "\r" == line
    ensures '\r' !in line ==> r == line
    ensures |line| > 0 && line[|line| - 1] == '\r' ==> r + "\r" == line
    ensures !(|line| > 0 && line[|line| - 1] == '\r') ==> r == line
  {
    if |line| > 0 && line[|line| - 1] == '\r' then line[..|line| - 1] else line
  }

  /**
   * `str::lines`: splits after each '\n'; a line that ended in "\r\n" loses
   * the '\r' too. A final line ending does not start an extra empty line,
   * and a final line without one keeps any trailing '\r'.
   */
  function Lines(text: string): (ls: seq<string>)
    ensures forall k :: 0 <= k < |ls| ==> '\n' !in ls[k]
    ensures |text| == 0 <==> |ls| == 0
    decreases |text|
  {
    if |text| == 0 then []
    else
      var i := NewlineIndex(text);
      if i == |text| then [text]
      else [StripCr(text[..i])] + Lines(text[i + 1..])
  }

  /** Each line followed by a '\n'. */
  function Unlines(ls: seq<string>): string
    decreases |ls|
  {
    if |ls| == 0 then "" else ls[0] + "\n" + Unlines(ls[1..])
  }

  /** A text that has a '\n' splits into its first line and the lines after it. */
  lemma {:induction false} LinesSplit(text: string, i: nat)
    requires i < |text| && i == NewlineIndex(text)
    ensures Lines(text) == [StripCr(text[..i])] + Lines(text[i + 1..])
  {
  }

  /** The first '\n' of a text is where `NewlineIndex` finds it. */
  lemma {:induction false} NewlineIndexFirst(s: string, i: nat)
    requires i < |s| && s[i] == '\n' && '\n' !in s[..i]
    ensures NewlineIndex(s) == i
    decreases i
  {
    if i > 0 {
      assert s[0] == s[..i][0];
      assert s[1..][..i - 1] == s[..i][1..];
      NewlineIndexFirst(s[1..], i - 1);
    }
  }

  /**
   * A line ended by "\r\n" comes out of `lines` without either character,
   * and the lines after it are split on their own.
   */
  lemma LinesCrLf(a: string, rest: string)
    requires '\n' !in a
    ensures Lines(a + "\r\n" + rest) == [a] + Lines(rest)
  {
    var text := a + "\r\n" + rest;
    var i := |a| + 1;
    assert text[..i] == a + "\r";
    assert text[i] == '\n';
    assert text[i + 1..] == rest;
    NewlineIndexFirst(text, i);
    LinesSplit(text, i);
    assert StripCr(a + "\r") == a;
  }

  /** A text is what comes before a '\n' in it, the '\n', and what comes after. */
  lemma SplitAtNewline(text: string, i: nat)
    requires i < |text| && text[i] == '\n'
    ensures text == text[..i] + "\n" + text[i + 1..]
  {
    assert text[i..] == "\n" + text[i + 1..];
    assert text == text[..i] + text[i..];
  }

  /** Every slice of a text without carriage returns has none either. */
  lemma NoCrInSlice(text: string, lo: nat, hi: nat)
    requires '\r' !in text && lo <= hi <= |text|
    ensures '\r' !in text[lo..hi]
  {
    forall k | 0 <= k < hi - lo ensures text[lo..hi][k] != '\r' {
      assert text[lo..hi][k] == text[lo + k];
    }
  }

  /** The text as `lines` sees it: with a final '\n' when it does not end in one. */
  function Terminated(text: string): string
  {
    if |text| == 0 || text[|text| - 1] == '\n' then text else text + "\n"
  }

  /** `Unlines` of a line in front of more lines. */
  lemma UnlinesCons(x: string, ys: seq<string>)
    ensures Unlines([x] + ys) == x + "\n" + Unlines(ys)
  {
    assert ([x] + ys)[0] == x && ([x] + ys)[1..] == ys;
  }

  /** Terminating a line and a text after it terminates only the text. */
  lemma TerminatedCons(h: string, r: string)
    ensures Terminated(h + "\n" + r) == h + "\n" + Terminated(r)
  {
    var t := h + "\n" + r;
    if |r| == 0 {
      assert t == h + "\n" && t[|t| - 1] == '\n';
    } else {
      assert t[|t| - 1] == r[|r| - 1];
      assert t + "\n" == h + "\n" + (r + "\n");
    }
  }

  /**
   * For a text without carriage returns, `lines` loses nothing but the
   * final line ending: terminating each line again gives back the text,
   * with a '\n' added only where the text had none at its end.
   */
  lemma {:induction false} LinesRoundTrip(text: string)
    requires '\r' !in text
    ensures Unlines(Lines(text)) == Terminated(text)
    decreases |text|
  {
    if |text| != 0 {
      var i := NewlineIndex(text);
      if i == |text| {
        assert Unlines([text]) == text + "\n" + Unlines([]);
      } else {
        var head, rest := text[..i], text[i + 1..];
        LinesSplit(text, i);
        SplitAtNewline(text, i);
        NoCrInSlice(text, 0, i);
        NoCrInSlice(text, i + 1, |text|);
        LinesRoundTrip(rest);
        UnlinesCons(head, Lines(rest));
        TerminatedCons(head, rest);
      }
    }
  }

  // ---------------------------------------------------------------------
  // str::contains and search
  // ---------------------------------------------------------------------

  /** `s` begins with `prefix`. */
  predicate StartsWith(s: string, prefix: string)
  {
    |prefix| <= |s| && s[..|prefix|] == prefix
  }

  /** `str::contains` with a string pattern, comparing characters exactly. */
  predicate Contains(line: string, query: string)
    decreases |line|
  {
    StartsWith(line, query) || (|line| > 0 && Contains(line[1..], query))
  }

  /** `query` occurs in `line` starting at offset `i`. */
  predicate OccursAt(line: string, query: string, i: int)
  {
    0 <= i && i + |query| <= |line| && line[i..i + |query|] == query
  }

  /** `Contains` agrees with the textbook definition of a substring, both ways. */
  lemma {:induction false} ContainsIffOccurs(line: string, query: string)
    ensures Contains(line, query) <==> exists i :: OccursAt(line, query, i)
    decreases |line|
  {
    if StartsWith(line, query) {
      assert OccursAt(line, query, 0);
    } else if |line| > 0 {
      ContainsIffOccurs(line[1..], query);
      if exists i :: OccursAt(line[1..], query, i) {
        var i :| OccursAt(line[1..], query, i);
        assert line[1..][i..i + |query|] == line[i + 1..i + 1 + |query|];
        assert OccursAt(line, query, i + 1);
      }
      if exists i :: OccursAt(line, query, i) {
        var i :| OccursAt(line, query, i);
        assert i != 0;
        assert line[1..][i - 1..i - 1 + |query|] == line[i..i + |query|];
        assert OccursAt(line[1..], query, i - 1);
      }
    }
  }

  /** The lines of `lines` that contain `query`, in their original order. */
  function Matching(lines: seq<string>, query: string): (r: seq<string>)
    ensures |r| <= |lines|
    ensures forall k :: 0 <= k < |r| ==> Contains(r[k], query)
    decreases |lines|
  {
    if |lines| == 0 then []
    else (if Contains(lines[0], query) then [lines[0]] else []) + Matching(lines[1..], query)
  }

  /** A line is kept exactly when it is one of the lines and contains the query. */
  lemma {:induction false} MatchingMembers(lines: seq<string>, query: string, l: string)
    ensures l in Matching(lines, query) <==> l in lines && Contains(l, query)
    decreases |lines|
  {
    if |lines| != 0 {
      MatchingMembers(lines[1..], query, l);
      assert lines == [lines[0]] + lines[1..];
    }
  }

  /** Filtering commutes with concatenation, so kept lines stay in text order. */
  lemma {:induction false} MatchingDistributes(a: seq<string>, b: seq<string>, query: string)
    ensures Matching(a + b, query) == Matching(a, query) + Matching(b, query)
    decreases |a|
  {
    if |a| == 0 {
      assert a + b == b;
    } else {
      MatchingDistributes(a[1..], b, query);
      assert (a + b)[0] == a[0];
      assert (a + b)[1..] == a[1..] + b;
      var h := if Contains(a[0], query) then [a[0]] else [];
      calc {
        Matching(a + b, query);
        h + Matching(a[1..] + b, query);
        h + (Matching(a[1..], query) + Matching(b, query));
        (h + Matching(a[1..], query)) + Matching(b, query);
        Matching(a, query) + Matching(b, query);
      }
    }
  }

  /** Filtering one more line adds that line exactly when it contains the query. */
  lemma MatchingSnoc(lines: seq<string>, i: nat, query: string)
    requires i < |lines|
    ensures Matching(lines[..i + 1], query)
      == Matching(lines[..i], query) + (if Contains(lines[i], query) then [lines[i]] else [])
  {
    MatchingDistributes(lines[..i], [lines[i]], query);
    assert lines[..i + 1] == lines[..i] + [lines[i]];
  }

  /**
   * `search`: walks the text's lines and collects those containing the
   * query. The result is exactly the filtered line list: every kept line
   * contains the query, no line containing it is dropped, order is kept.
   */
  method Search(query: string, text: string) returns (r: seq<string>)
    ensures r == Matching(Lines(text), query)
    ensures forall l :: l in r <==> l in Lines(text) && Contains(l, query)
  {
    var lines := Lines(text);
    r := [];
    var i := 0;
    while i < |lines|
      invariant 0 <= i <= |lines|
      invariant r == Matching(lines[..i], query)
    {
      MatchingSnoc(lines, i, query);
      if Contains(lines[i], query) {
        r := r + [lines[i]];
      }
      i := i + 1;
    }
    assert lines[..|lines|] == lines;
    forall l {
      MatchingMembers(lines, query, l);
    }
  }

  /** Matching is case-sensitive: "yes" is found in "say yes," but not in "say Yes,". */
  lemma CaseSensitive()
    ensures Contains("say yes,", "yes")
    ensures !Contains("say Yes,", "yes")
  {
    assert OccursAt("say yes,", "yes", 4);
    ContainsIffOccurs("say yes,", "yes");
    var line := "say Yes,";
    forall i | 0 <= i && i + 3 <= |line| ensures !OccursAt(line, "yes", i) {
      assert line[i] != 'y' || line[i + 1] != 'e';
      assert line[i..i + 3][0] == line[i] && line[i..i + 3][1] == line[i + 1];
    }
    ContainsIffOccurs(line, "yes");
  }
}

=== FILE: queue.dfy ===
/**
 * `list::queue::Queue`: a FIFO queue built from an owned head chain and a
 * raw pointer to the last node. The chain is abstracted to a sequence whose
 * first element is the head; the raw tail pointer is abstracted to whether
 * it is set, since it always points at the chain's last node when it is.
 */
module Queues {
  import opened Wrappers

  /** `items[0]` is the head node's data; `hasTail` says whether `tail` is `Some`. */
  datatype Queue<T> = Queue(items: seq<T>, hasTail: bool)

  /** The tail pointer is set exactly when there is a head node. */
  predicate Valid<T>(q: Queue<T>)
  {
    q.hasTail <==> |q.items| > 0
  }

  /** `Queue::new`: no head and no tail. */
  function New<T>(): (q: Queue<T>)
    ensures Valid(q)
    ensures |q.items| == 0 && Dequeue(q).1.None?
  {
    Queue([], false)
  }

  /**
   * `Queue::enqueue`: with a tail, the new node is linked after it;
   * without one, the new node becomes the head. Either way it becomes the
   * new tail. A set tail always names the last node of the head chain, so
   * a queue with a tail but no head has no counterpart in the source.
   */
  function Enqueue<T>(q: Queue<T>, data: T): (r: Queue<T>)
    ensures Valid(r)
    ensures r.hasTail
    ensures q.hasTail ==> r.items == q.items + [data]
    ensures !q.hasTail ==> r.items == [data]
    ensures Valid(q) ==> r.items == q.items + [data]
  {
    if q.hasTail then Queue(q.items + [data], true)
    else Queue([data], true)
  }

  /**
   * `Queue::dequeue`: takes the head node, if any, and returns its data.
   * When that node had no successor, the tail pointer is cleared as well.
   */
  function Dequeue<T>(q: Queue<T>): (r: (Queue<T>, Option<T>))
    ensures Valid(q) ==> Valid(r.0)
    ensures r.1.None? <==> |q.items| == 0
    ensures r.1.None? ==> r.0 == q
    ensures r.1.Some? ==> r.1.value == q.items[0] && r.0.items == q.items[1..]
    ensures |q.items| == 1 ==> !r.0.hasTail
  {
    if |q.items| == 0 then (q, None)
    else if |q.items| > 1 then (Queue(q.items[1..], q.hasTail), Some(q.items[0]))
    else (Queue([], false), Some(q.items[0]))
  }

  /** Dequeue until `None`, collecting the items. */
  function Drain<T>(q: Queue<T>): (xs: seq<T>)
    ensures xs == q.items
    decreases |q.items|
  {
    match Dequeue(q).1
    case None => []
    case Some(x) => [x] + Drain(Dequeue(q).0)
  }

  /** Enqueue each of `xs` in turn, first first. */
  function EnqueueAll<T>(q: Queue<T>, xs: seq<T>): Queue<T>
    decreases |xs|
  {
    if |xs| == 0 then q else EnqueueAll(Enqueue(q, xs[0]), xs[1..])
  }

  /** Enqueueing a batch appends it, in order, behind what is already queued. */
  lemma {:induction false} EnqueueAllAppends<T>(q: Queue<T>, xs: seq<T>)
    requires Valid(q)
    ensures Valid(EnqueueAll(q, xs))
    ensures EnqueueAll(q, xs).items == q.items + xs
    decreases |xs|
  {
    if |xs| != 0 {
      EnqueueAllAppends(Enqueue(q, xs[0]), xs[1..]);
      assert q.items + [xs[0]] + xs[1..] == q.items + xs;
    }
  }

  /** FIFO: dequeuing everything returns the items in the order they were enqueued. */
  lemma DrainIsEnqueueOrder<T>(xs: seq<T>)
    ensures Drain(EnqueueAll(New(), xs)) == xs
  {
    EnqueueAllAppends(New(), xs);
  }

  /** The first item dequeued from a non-empty valid queue is the earliest one enqueued. */
  lemma DequeueAfterEnqueue<T>(q: Queue<T>, data: T)
    requires Valid(q)
    ensures |q.items| > 0 ==> Dequeue(Enqueue(q, data)).1 == Dequeue(q).1
    ensures |q.items| == 0 ==> Dequeue(Enqueue(q, data)) == (q, Some(data))
  {
  }
}

=== FILE: sequences.dfy ===
/** Small sequence helpers shared by the linked containers. */
module Sequences {

  /** The elements of `s` in the opposite order. */
  function Reverse<T>(s: seq<T>): (r: seq<T>)
    ensures |r| == |s|
    ensures forall i :: 0 <= i < |s| ==> r[i] == s[|s| - 1 - i]
  {
    if |s| == 0 then [] else Reverse(s[1..]) + [s[0]]
  }

  /** Concatenation is associative; stated once so callers need not re-prove it by extensionality. */
  lemma AppendAssoc<T>(a: seq<T>, b: seq<T>, c: seq<T>)
    ensures a + (b + c) == (a + b) + c
  {
  }
}

=== FILE: stack.dfy ===
/**
 * `list::stack::Stack`: the same node chain as `LinkedList`, with `peek`.
 * The chain is abstracted to a sequence whose first element is the top.
 */
module Stacks {
  import opened Wrappers
  import opened Sequences

  /** `items[0]` is the top node's data; `length` is the stored counter. */
  datatype Stack<T> = Stack(items: seq<T>, length: int)

  /** The counter equals the number of nodes in the chain. */
  predicate Valid<T>(s: Stack<T>)
  {
    s.length == |s.items|
  }

  /** `Stack::new`: no nodes and a zero counter. */
  function New<T>(): (s: Stack<T>)
    ensures Valid(s)
    ensures |s.items| == 0 && Length(s) == 0 && Peek(s).None?
  {
    Stack([], 0)
  }

  /** `Stack::push`: the new node becomes the top; the counter goes up by one. */
  function Push<T>(s: Stack<T>, data: T): (r: Stack<T>)
    ensures Valid(s) ==> Valid(r)
    ensures r.length == s.length + 1
    ensures Peek(r) == Some(data)
    ensures r.items[1..] == s.items
  {
    Stack([data] + s.items, s.length + 1)
  }

  /**
   * `Stack::pop`: takes the top node, if any, returning its data and
   * decrementing the counter. An empty stack is returned unchanged with `None`.
   */
  function Pop<T>(s: Stack<T>): (r: (Stack<T>, Option<T>))
    ensures Valid(s) ==> Valid(r.0)
    ensures r.1 == Peek(s)
    ensures r.1.None? ==> r.0 == s
    ensures r.1.Some? ==> r.0.items == s.items[1..] && r.0.length == s.length - 1
  {
    if |s.items| == 0 then (s, None)
    else (Stack(s.items[1..], s.length - 1), Some(s.items[0]))
  }

  /** `Stack::peek`: the top item, if any; the stack itself is not changed. */
  function Peek<T>(s: Stack<T>): (r: Option<T>)
    ensures r.None? <==> |s.items| == 0
    ensures r.Some? ==> r.value == s.items[0]
  {
    if |s.items| == 0 then None else Some(s.items[0])
  }

  /** `Stack::length`: the stored counter, which counts the nodes. */
  function Length<T>(s: Stack<T>): (n: int)
    ensures Valid(s) ==> n == |s.items|
  {
    s.length
  }

  /**
   * Iterating the stack: `Iterator::next` is `pop`, called until it
   * returns `None`. The items come out top first.
   */
  function Drain<T>(s: Stack<T>): (xs: seq<T>)
    ensures xs == s.items
    decreases |s.items|
  {
    match Pop(s).1
    case None => []
    case Some(x) => [x] + Drain(Pop(s).0)
  }

  /** Push each of `xs` in turn, first first. */
  function PushAll<T>(s: Stack<T>, xs: seq<T>): Stack<T>
    decreases |xs|
  {
    if |xs| == 0 then s else PushAll(Push(s, xs[0]), xs[1..])
  }

  /** The item just pushed is the one popped, and the stack is otherwise restored. */
  lemma PopUndoesPush<T>(s: Stack<T>, data: T)
    ensures Pop(Push(s, data)) == (s, Some(data))
  {
  }

  /** Peeking removes nothing: a later pop returns the same item. */
  lemma PeekAgreesWithPop<T>(s: Stack<T>)
    ensures Peek(s) == Pop(s).1
    ensures Peek(s).None? ==> Pop(s).0 == s
  {
  }

  /** Pushing a batch puts it on top of the old items, last pushed first. */
  lemma {:induction false} PushAllItems<T>(s: Stack<T>, xs: seq<T>)
    ensures PushAll(s, xs).items == Reverse(xs) + s.items
    decreases |xs|
  {
    if |xs| != 0 {
      var x, rest := xs[0], xs[1..];
      PushAllItems(Push(s, x), rest);
      assert Reverse(xs) == Reverse(rest) + [x];
      AppendAssoc(Reverse(rest), [x], s.items);
    }
  }

  /** Pushing a batch counts every item, and a counter that matched still matches. */
  lemma {:induction false} PushAllCounts<T>(s: Stack<T>, xs: seq<T>)
    ensures PushAll(s, xs).length == s.length + |xs|
    ensures |PushAll(s, xs).items| == |s.items| + |xs|
    decreases |xs|
  {
    if |xs| != 0 {
      PushAllCounts(Push(s, xs[0]), xs[1..]);
    }
  }

  /** Pushing a batch puts it on top in reverse order and counts every item. */
  lemma PushAllStacks<T>(s: Stack<T>, xs: seq<T>)
    ensures PushAll(s, xs).items == Reverse(xs) + s.items
    ensures PushAll(s, xs).length == s.length + |xs|
    ensures Valid(s) ==> Valid(PushAll(s, xs))
  {
    PushAllItems(s, xs);
    PushAllCounts(s, xs);
  }

  /** LIFO: the last item pushed is on top, and iteration runs in reverse push order. */
  lemma DrainIsReversePushOrder<T>(xs: seq<T>)
    ensures Peek(PushAll(New(), xs)) == if |xs| == 0 then None else Some(xs[|xs| - 1])
    ensures Drain(PushAll(New(), xs)) == Reverse(xs)
    ensures Length(PushAll(New(), xs)) == |xs|
  {
    PushAllStacks(New(), xs);
  }

  /** Pop returns `None` exactly on an empty stack, which it leaves unchanged. */
  lemma PopOnEmpty<T>(s: Stack<T>)
    requires Valid(s)
    ensures Pop(s).1.None? <==> Length(s) == 0
    ensures Length(s) == 0 ==> Pop(s).0 == s && Peek(s).None?
  {
  }
}

=== FILE: wrappers.dfy ===
/** Rust's `Option` and `Result`. */
module Wrappers {

  /** Rust's `Option<T>`. */
  datatype Option<+T> = None | Some(value: T)

  /** Rust's `Result<T, E>`. */
  datatype Result<+R, +E> = Success(value: R) | Failure(error: E)
}
